=== FILE: README.md ===
# NutriTrack daily-log store, food catalog and page handlers in Dafny

This project models the logic core of NutriTrack, a browser nutrition tracker.

- The daily-log store (`src/lib/storage.ts`) keeps one log per calendar date. A log holds its meals in insertion order, four running totals (calories, protein, carbs, fat) and the calorie goal it captured when it was created. Reading an absent date gives a fresh empty log that is not persisted. `saveMeal` appends to today's log and `deleteMeal` filters today's log by meal id. After each of them the four totals are recomputed from scratch as the sum of value × quantity over the meals. The calorie goal is a separate global value that defaults to 2000.
- The static catalog (`src/lib/foodDatabase.ts`) is a fixed table of 25 foods. `searchFood` is a case-insensitive substring search that keeps table order. `getFoodById` returns the first entry with a given id.
- The page handlers (`src/app/page.tsx`) add a blank-query guard on search, build meals from a selected food or from an imported recipe, and compute the dashboard's percentage and remaining calories.

Modules, leaves first:

- `Types` (`types.dfy`): `Food`, `Meal`, `DailyLog`, the meal-type and source enums, and `Option`.
- `Seqs` (`seqs.dfy`): order-preserving `Filter` and first-match `FindFirst`, the two array methods the core uses.
- `Text` (`text.dfy`): JavaScript `trim`, `toLowerCase` and `includes`.
- `NumberText` (`numbertext.dfy`): integer `toString` and `parseInt`, and how the stored goal is read back.
- `Totals` (`totals.dfy`): the left-to-right reduction, the "totals equal the reduction" predicate `Consistent`, and removal by id.
- `Storage` (`storage.dfy`): the store as a pure value `Store(data, goal)`. `data` is `None` while the log blob has never been written, and `goal` is `None` while no goal has been set. Every operation is a function from one store to the next, so a read (`GetDailyLog`, `GetCalorieGoal`) cannot change the store.
- `Catalog` (`catalog.dfy`): the table, search and lookup.
- `Page` (`page.tsx` logic, in `page.dfy`): the handlers and the dashboard figures.

Numbers are exact: macros and quantities are `real`, and goals and timestamps are `int`. JavaScript `Math.round(x)` is `Floor(x + 0.5)`. The clock is never read. The date that `getTodayDate()` would return is passed in as `today`. Each `Date.now()` reading is its own integer parameter, because the handlers read the clock separately for the id, the food id and the timestamp.

The log key is the UTC date that `toISOString()` gives (`src/lib/storage.ts:7`). The model takes it as an opaque string supplied by the caller.

## Model

| member | source | states |
|---|---|---|
| `Seqs.Filter` | src/lib/storage.ts:56 | the result holds exactly the elements that pass the test, each as many times as in the input, and it is a subsequence of the input (order kept) |
| `Seqs.FilterConcat` | src/lib/foodDatabase.ts:46-48 | filtering distributes over concatenation, so survivors keep their relative order |
| `Seqs.FilterKeepsAll` | src/lib/storage.ts:56 | a sequence whose every element passes is returned unchanged |
| `Seqs.FilterIdempotent` | src/lib/storage.ts:56 | filtering twice by the same test equals filtering once |
| `Seqs.FindFirst` | src/lib/foodDatabase.ts:52 | `None` exactly when no element passes; otherwise an element that passes, with no passing element before it |
| `Totals.Sum` | src/lib/storage.ts:35-38 | the reduction is non-negative when every meal contributes a non-negative amount |
| `Totals.SumAppend` | src/lib/storage.ts:32-38 | appending a meal raises the reduction by exactly that meal's value × quantity |
| `Totals.SumConcat` | src/lib/storage.ts:35-38 | the reduction over two blocks of meals is the sum of the two reductions |
| `Totals.Recompute` | src/lib/storage.ts:34-38 | after recomputation all four totals equal the reductions over the meals; meals, date and goal are kept |
| `Totals.RecomputeConsistent` | src/lib/storage.ts:58-62 | recomputing a log whose totals already agree with its meals leaves it unchanged |
| `Totals.Without` | src/lib/storage.ts:56 | a meal survives exactly when its id differs from the deleted id, with all its copies; meals with that id are all gone; survivors keep their order |
| `Totals.WithoutAbsent` | src/lib/storage.ts:56 | removing an id that no meal carries leaves the meal list unchanged |
| `Totals.WithoutTwice` | src/lib/storage.ts:56 | removing the same id twice is the same as removing it once |
| `Totals.WithoutConcat` | src/lib/storage.ts:56 | removal works block by block, so earlier survivors stay ahead of later ones |
| `Text.TrimStart` | src/app/page.tsx:36 | the result is a suffix of the input, everything dropped is whitespace, and it does not start with whitespace |
| `Text.TrimEnd` | src/app/page.tsx:36 | the result is a prefix of the input, everything dropped is whitespace, and it does not end with whitespace |
| `Text.Trim` | src/app/page.tsx:36 | the result is a slice of the input with only whitespace cut from either end, and it neither starts nor ends with whitespace |
| `Text.TrimEmptyIffBlank` | src/app/page.tsx:36 | `trim()` gives the empty string exactly when every character is whitespace |
| `Text.ToLower` | src/lib/foodDatabase.ts:45 | the result has the same length, and each character is the lower-case mapping of the input's character |
| `Text.ToLowerIdempotent` | src/lib/foodDatabase.ts:45-47 | lower-casing twice equals lower-casing once |
| `Text.Contains` | src/lib/foodDatabase.ts:47 | `includes` holds exactly when the needle occurs at some index of the haystack |
| `Text.ContainsEmpty` | src/lib/foodDatabase.ts:47 | every string contains the empty string |
| `NumberText.NatToString` | src/lib/storage.ts:77 | a numeral is non-empty, made only of decimal digits, and starts with 0 only for zero |
| `NumberText.ToString` | src/lib/storage.ts:77 | `toString` of an integer starts with '-' exactly for negatives, the rest is a non-empty run of digits, and it has no leading zero except for 0 itself |
| `NumberText.DigitRun` | src/lib/storage.ts:72 | `parseInt` reads the longest run of leading digits: every character in the run is a digit, and the next one is not |
| `NumberText.DigitsOfNat` | src/lib/storage.ts:72-77 | reading back the digits of a numeral gives the number |
| `NumberText.ParseIntToString` | src/lib/storage.ts:72-77 | `parseInt(g.toString())` is `g` for every integer `g`, negative ones included |
| `NumberText.ParseIntIgnoresTail` | src/lib/storage.ts:72 | `parseInt` stops after the digits: `g.toString()` followed by text that does not start with a digit reads as `g` |
| `NumberText.ReadGoalOfNaNText` | src/lib/storage.ts:71-72 | a goal key holding "NaN" reads back as NaN, not as 2000; an empty value reads back as 2000 |
| `NumberText.GoalRoundTrip` | src/lib/storage.ts:68-78 | the goal text stored by `setCalorieGoal(g)` is read back by `getCalorieGoal` as `g` |
| `NumberText.ToStringInjective` | src/app/page.tsx:54 | different integers have different `toString` text |
| `Storage.GetCalorieGoal` | src/lib/storage.ts:68-73 | the integer goal equals what `parseInt` reads back from the goal key's text: 2000 with no key, otherwise the value that was set |
| `Storage.SetCalorieGoal` | src/lib/storage.ts:75-78 | after setting the goal, `getCalorieGoal` returns it, and the logs are untouched |
| `Storage.CreateEmptyLog` | src/lib/storage.ts:80-90 | the fresh log has the given date, no meals, totals that agree with its meals (all zero), and the current goal |
| `Storage.GetDailyLog` | src/lib/storage.ts:10-22 | a persisted date gives the stored record unchanged; an absent date or an absent blob gives that date, no meals, four zero totals and the current goal |
| `Storage.SaveMeal` | src/lib/storage.ts:24-42 | today's meals become the earlier meals plus the new meal at the end; totals agree with the meals; date and captured goal are kept; today's key is added; other dates and the goal are untouched |
| `Storage.DeleteMeal` | src/lib/storage.ts:44-66 | with no blob or no log for today the store is returned unchanged; otherwise today's meals are filtered by id, totals agree with the meals, no key is added, and other dates and the goal are untouched |
| `Storage.ApplyPreservesWellFormed` | src/lib/storage.ts:24-78 | a save, a delete or a goal change keeps every persisted log's totals equal to the reduction over its meals |
| `Storage.RunPreservesWellFormed` | src/lib/storage.ts:24-78 | the totals invariant holds after any sequence of saves, deletes and goal changes |
| `Storage.ReachableWellFormed` | src/lib/storage.ts:24-78 | every store reachable from the untouched store satisfies the totals invariant |
| `Storage.FreshLogTakesLatestGoal` | src/lib/storage.ts:80-90 | reading a never-written date after `setCalorieGoal(g)` gives an empty log with goal `g` |
| `Storage.PersistedLogKeepsGoal` | src/lib/storage.ts:20-21 | a persisted log reads the same before and after a goal change, so it keeps the goal it captured at creation |
| `Storage.DeleteAbsentIsNoOp` | src/lib/storage.ts:44-66 | deleting an id absent from today's consistent log, or deleting when there is no log for today, leaves the whole store unchanged |
| `Storage.DeleteAbsentKeepsMeals` | src/lib/storage.ts:56 | deleting an id that no meal in today's log carries keeps today's meals exactly as they were |
| `Storage.DeleteTwice` | src/lib/storage.ts:44-66 | deleting the same id twice gives the same store as deleting it once |
| `Storage.SaveMealAddsContribution` | src/lib/storage.ts:31-38 | if today's log was consistent, saving raises each total by exactly the meal's value × quantity |
| `Storage.GoalDefaultAndRoundTrip` | src/lib/storage.ts:68-78 | with no goal stored the goal reads as 2000; a set goal reads back, through its text form, as the value set |
| `Catalog.SearchIn` | src/lib/foodDatabase.ts:44-49 | a food is returned exactly when it is in the table and its lower-cased name contains the lower-cased query; the result is a subsequence of the table |
| `Catalog.SearchFood` | src/lib/foodDatabase.ts:44-49 | the same for the fixed table: exactly the matching entries, in table order |
| `Catalog.SearchCaseInsensitive` | src/lib/foodDatabase.ts:45-47 | queries that lower-case to the same string return the same foods |
| `Catalog.SearchLowered` | src/lib/foodDatabase.ts:45-47 | searching for the lower-cased query gives the same result as the query itself |
| `Catalog.SearchInEmptyQuery` | src/lib/foodDatabase.ts:44-49 | for any table, the empty query returns the whole table, because every name contains "" |
| `Catalog.SearchEmptyQueryIsWholeTable` | src/lib/foodDatabase.ts:44-49 | the empty query returns the whole table, in order |
| `Catalog.FrangoInChickenName` | src/lib/foodDatabase.ts:5 | the lower-cased name "Peito de Frango" contains "frango" |
| `Catalog.SearchFrango` | src/lib/foodDatabase.ts:44-49 | "FRANGO" and "frango" give the same results, and both include "Peito de Frango" |
| `Catalog.FindById` | src/lib/foodDatabase.ts:51-53 | `None` exactly when no entry has the id; otherwise the first entry with that id |
| `Catalog.GetFoodById` | src/lib/foodDatabase.ts:51-53 | the same for the fixed table |
| `Catalog.IdsDistinct` | src/lib/foodDatabase.ts:3-42 | no two table entries share an id |
| `Catalog.FindByIdOfEntry` | src/lib/foodDatabase.ts:51-53 | in a table whose ids are pairwise distinct, looking up an entry's id returns that entry |
| `Catalog.GetFoodByIdOfEntry` | src/lib/foodDatabase.ts:51-53 | looking up the id of any table entry returns exactly that entry |
| `Catalog.NutrientsNonNegative` | src/lib/foodDatabase.ts:3-42 | every entry has non-negative calories, protein, carbs and fat |
| `Page.HandleSearch` | src/app/page.tsx:34-42 | an all-whitespace (or empty) query shows no results; any other query shows exactly `searchFood(query)` |
| `Page.SourceForTab` | src/app/page.tsx:65 | the photo tab gives 'photo', the recipe tab 'recipe' and the manual tab 'manual', one-to-one; 'voice' is never produced |
| `Page.MealFromFood` | src/app/page.tsx:53-66 | the meal copies the food's id, name, four values and serving unchanged, and carries the chosen quantity, meal type, tab source and timestamp; its id parses back to the clock reading |
| `Page.MealFromFoodContribution` | src/app/page.tsx:53-66 | such a meal adds each of the food's values times the quantity to the totals |
| `Page.MealIdsFromDistinctStamps` | src/app/page.tsx:54 | meals built at different clock readings have different ids |
| `Page.HandleAddMeal` | src/app/page.tsx:50-72 | with no food selected the store is unchanged; otherwise today's meals gain the built meal at the end, the totals agree, and today's date and captured goal are kept; exactly today's key is added, and the stored goal and every other date's log are untouched |
| `Page.Round` | src/app/page.tsx:106-109 | `Math.round(x)` is the integer `r` with `r - 0.5 <= x < r + 0.5` |
| `Page.RecipeMeal` | src/app/page.tsx:105-124 | one serving (quantity 1) from source 'recipe', named after the recipe, food id "recipe-" + stamp; each value is the whole number nearest to total ÷ servings, with halves rounded up; its id parses back to the clock reading |
| `Page.RoundedFromUnique` | src/app/page.tsx:106-109 | the rounded share is uniquely determined by the exact share |
| `Page.MockRecipePerServing` | src/lib/foodDatabase.ts:79-87 | the fixed mock recipe becomes 225 kcal, 13 g protein, 20 g carbs and 8 g fat per serving |
| `Page.HandleRecipeImported` | src/app/page.tsx:105-128 | today's meals gain the recipe meal at the end; totals agree; today's date and captured goal are kept; the stored goal and other dates are untouched |
| `Page.CaloriePercentage` | src/app/page.tsx:144 | never above 100; for any non-zero goal, 100 exactly when total ÷ goal is at least 1, otherwise 100 × total ÷ goal, and non-negative when total ÷ goal is; with a zero goal, 100 for a positive total and not a finite number otherwise |
| `Page.RemainingCalories` | src/app/page.tsx:145 | total plus remaining is the goal, and remaining is negative exactly when the total exceeds the goal |
| `Page.FullBarIffNothingRemains` | src/app/page.tsx:144-145 | with a positive goal the percentage is 100 exactly when the remaining calories are at most zero, and with a negative goal exactly when they are at least zero; remaining is negative exactly when the total exceeds the goal |
| `Page.DispatchKeepsNoVoice` | src/app/page.tsx:50-134 | no add, recipe import, delete or goal update stores a meal with source 'voice' if none was stored before |
| `Page.DispatchAllKeepsNoVoice` | src/app/page.tsx:50-134 | the same holds over any sequence of such actions |
| `Page.PageNeverStoresVoice` | src/types/food.ts:24 | 'voice' is a declared source, but no store reachable through the page's actions holds a voice meal |
| `Page.FirstMealTotals` | src/lib/storage.ts:31-38 | the first meal saved for a date with no log makes each total that meal's contribution |
| `Page.EggEntry` | src/lib/foodDatabase.ts:6 | id "2" is the egg, with 155 kcal, 13 g protein, 1.1 g carbs and 11 g fat |
| `Page.TwoEggsScenario` | src/app/page.tsx:50-72 | logging two eggs in an empty store gives totals of 310 kcal, 26 g protein, 2.2 g carbs and 22 g fat |
| `Page.AddTwoDeleteFirst` | src/lib/storage.ts:24-66 | after saving two meals with different ids and deleting the first, only the second remains and the totals are its values alone |

## Left out

- Browser storage, `JSON.parse`/`JSON.stringify` and the `typeof window` guards (src/lib/storage.ts:11-15, 41) are I/O. The blob is a `map` and the goal an `Option<int>`. A malformed blob makes `JSON.parse` throw, and that case is not modelled.
- `Storage.GetCalorieGoal` works on the integer the goal key holds, and its contract ties that integer to the key's text through `NumberText.ReadGoal`. A NaN goal is not modelled. The application can produce one: clearing the goal field makes `parseInt` give NaN (src/app/page.tsx:485), `handleUpdateGoal` stores it (src/app/page.tsx:130), `toString` writes "NaN" (src/lib/storage.ts:77), and `getCalorieGoal` reads it back as NaN (src/lib/storage.ts:72). `NumberText.ReadGoalOfNaNText` shows the last step. The store's goal is an integer, so the rest of the chain is out of the model.
- `getTodayDate` and `Date.now()` are clock reads. They become parameters. The midnight skew between a read and a later write is therefore not modelled.
- `analyzeFoodFromImage` uses `setTimeout` and `Math.random`, so it is not modelled. `analyzeRecipeFromUrl` also uses `setTimeout`; only the constant record it resolves with (`Page.MockRecipe`) is modelled.
- The JSX, React state, tab switching, the goal modal and voice recognition (src/app/page.tsx:79-98) are presentation. So are `FoodScanner.tsx`, `RecipeImporter.tsx` and `MealList.tsx`.
- IEEE-754 arithmetic is not modelled. Sums are exact reals, so rounding error and summation order do not arise. NaN from `parseFloat`/`parseInt` on user input is not represented.
- `Page.RecipeMeal` and `Page.HandleRecipeImported` require a non-zero serving count. In JavaScript, dividing by zero servings gives Infinity or NaN, which exact reals cannot represent.
- `NumberText.ToString` and `NumberText.ParseInt` cover integers only, and leave out `parseInt`'s `0x` hexadecimal prefix. They also leave out the exponent form that `toString` gives for magnitudes of 10^21 and above. A goal that large can be typed into the goal field, and JavaScript then reads it back wrongly ("1e+21" parses as 1). Millisecond timestamps stay far below that bound.
- `NumberText.ParseIntToString` holds for every integer in the model. It matches JavaScript only for magnitudes below 10^21, because above that `toString` switches to exponent form.
- `NumberText.ParseIntIgnoresTail`: same bound as `NumberText.ParseIntToString`.
- `NumberText.ToStringInjective`: same bound as `NumberText.ParseIntToString`.
- `NumberText.GoalRoundTrip`: the goal reads back as set only for goals below 10^21 in magnitude in JavaScript. The model's `ToString` has no exponent form, so the lemma states the round trip for every integer.
- `Storage.GoalDefaultAndRoundTrip` and `Storage.GetCalorieGoal`: same bound as `NumberText.GoalRoundTrip`. For a goal of 10^21 or more in magnitude, JavaScript's `getCalorieGoal` returns a different number from the one set.
- `Storage.SetCalorieGoal`: the goal reads back as set only for goals below 10^21 in magnitude in JavaScript. `setCalorieGoal(1e21)` stores the text "1e+21" (src/lib/storage.ts:77), and `getCalorieGoal` parses it as 1 (src/lib/storage.ts:72). The model's `ToString` has no exponent form, so the contract promises the round trip for every integer.
- `Storage.FreshLogTakesLatestGoal`: same bound as `Storage.SetCalorieGoal`. After `setCalorieGoal(1e21)`, `createEmptyLog` captures the goal 1, not 10^21 (src/lib/storage.ts:88). The lemma states the captured goal is `g` for every integer.
- The page's add action (`AddFood`) accepts any tab in the model, but in the page only the manual tab renders the add button (src/app/page.tsx:340-453, button at 444-449). A food detected from a photo switches back to the manual tab first (src/app/page.tsx:102). So `handleAddMeal` in practice always stores source 'manual'. `Page.Dispatch` over-approximates by letting the photo and recipe tabs through as well, which keeps `Page.DispatchKeepsNoVoice` sound for every reachable state.
- `Text.ToLower` lower-cases ASCII and the Latin-1 capitals (U+00C0–U+00DE except U+00D7) only. Full Unicode case mapping is not modelled. Every catalog name falls within this range.
- The `Recipe` interface (src/types/food.ts:27-37) is not modelled, because no core code uses it. The page receives the analyser's summary instead, modelled as `Page.RecipeSummary`. The optional `fiber` field is carried as data only, and the core never reads it.

=== FILE: catalog.dfy ===
/**
 The static food catalog: a fixed table, a case-insensitive substring search
 by name and a lookup by id.
 */
module Catalog {
  import opened Types
  import opened Seqs
  import opened Text

  /** `foodDatabase`: the table, in its source order.  Values are per serving. */
  const FoodDatabase: seq<Food> := [
      Food("1", "Peito de Frango", 165.0, 31.0, 0.0, 3.6, None, "100g"),
      Food("2", "Ovo", 155.0, 13.0, 1.1, 11.0, None, "1 unidade"),
      Food("3", "Salmão", 208.0, 20.0, 0.0, 13.0, None, "100g"),
      Food("4", "Atum", 132.0, 28.0, 0.0, 1.3, None, "100g"),
      Food("5", "Carne Bovina", 250.0, 26.0, 0.0, 15.0, None, "100g"),
      Food("6", "Arroz Branco", 130.0, 2.7, 28.0, 0.3, Some(0.4), "100g"),
      Food("7", "Batata Doce", 86.0, 1.6, 20.0, 0.1, Some(3.0), "100g"),
      Food("8", "Pão Integral", 247.0, 13.0, 41.0, 3.4, Some(7.0), "100g"),
      Food("9", "Macarrão", 131.0, 5.0, 25.0, 1.1, None, "100g"),
      Food("10", "Aveia", 389.0, 17.0, 66.0, 7.0, Some(11.0), "100g"),
      Food("11", "Banana", 89.0, 1.1, 23.0, 0.3, Some(2.6), "1 unidade"),
      Food("12", "Maçã", 52.0, 0.3, 14.0, 0.2, Some(2.4), "1 unidade"),
      Food("13", "Morango", 32.0, 0.7, 7.7, 0.3, Some(2.0), "100g"),
      Food("14", "Abacate", 160.0, 2.0, 9.0, 15.0, Some(7.0), "100g"),
      Food("15", "Brócolis", 34.0, 2.8, 7.0, 0.4, Some(2.6), "100g"),
      Food("16", "Alface", 15.0, 1.4, 2.9, 0.2, Some(1.3), "100g"),
      Food("17", "Tomate", 18.0, 0.9, 3.9, 0.2, Some(1.2), "100g"),
      Food("18", "Leite Integral", 61.0, 3.2, 4.8, 3.3, None, "100ml"),
      Food("19", "Iogurte Natural", 61.0, 3.5, 4.7, 3.3, None, "100g"),
      Food("20", "Queijo Minas", 264.0, 17.4, 3.1, 20.8, None, "100g"),
      Food("21", "Azeite de Oliva", 884.0, 0.0, 0.0, 100.0, None, "100ml"),
      Food("22", "Amendoim", 567.0, 26.0, 16.0, 49.0, Some(8.5), "100g"),
      Food("23", "Castanha do Pará", 656.0, 14.0, 12.0, 66.0, Some(7.5), "100g"),
      Food("24", "Suco de Laranja", 45.0, 0.7, 10.4, 0.2, None, "100ml"),
      Food("25", "Café", 2.0, 0.3, 0.0, 0.0, None, "100ml")
    ]

  /** The test `food.name.toLowerCase().includes(lowerQuery)`. */
  function NameContains(lowerQuery: string): Food -> bool {
    (f: Food) => Contains(ToLower(f.name), lowerQuery)
  }

  /** Whether `f` is a hit for query `q` under `searchFood`. */
  predicate Matches(f: Food, q: string) {
    Contains(ToLower(f.name), ToLower(q))
  }

  /** `searchFood` over an arbitrary table. */
  function SearchIn(table: seq<Food>, q: string): (r: seq<Food>)
    ensures forall f :: f in r <==> f in table && Matches(f, q)
    ensures IsSubseq(r, table)
  {
    Filter(table, NameContains(ToLower(q)))
  }

  /** `searchFood(query)`: the table entries whose lower-cased name contains
      the lower-cased query, in table order. */
  function SearchFood(q: string): (r: seq<Food>)
    ensures forall f :: f in r <==> f in FoodDatabase && Matches(f, q)
    ensures IsSubseq(r, FoodDatabase)
  {
    SearchIn(FoodDatabase, q)
  }

  /** Queries that lower-case to the same string find the same foods. */
  lemma SearchCaseInsensitive(q1: string, q2: string)
    requires ToLower(q1) == ToLower(q2)
    ensures SearchFood(q1) == SearchFood(q2)
  {
  }

  /** Searching for a query or for its lower-cased form is the same. */
  lemma SearchLowered(q: string)
    ensures SearchFood(ToLower(q)) == SearchFood(q)
  {
    ToLowerIdempotent(q);
    SearchCaseInsensitive(ToLower(q), q);
  }

  /** The empty query matches every entry of any table, since every name
      contains "". */
  lemma SearchInEmptyQuery(table: seq<Food>)
    ensures SearchIn(table, "") == table
  {
    assert ToLower("") == "";
    forall i | 0 <= i < |table|
      ensures NameContains("")(table[i])
    {
      ContainsEmpty(ToLower(table[i].name));
    }
    FilterKeepsAll(table, NameContains(""));
  }

  /** The empty query returns the whole catalog, in order. */
  lemma SearchEmptyQueryIsWholeTable()
    ensures SearchFood("") == FoodDatabase
  {
    SearchInEmptyQuery(FoodDatabase);
  }

  /** The chicken-breast name is a hit for "frango". */
  lemma FrangoInChickenName()
    ensures Contains(ToLower("Peito de Frango"), ToLower("frango"))
  {
    LowerContains("Peito de Frango", "frango");
  }

  /** The two literals above, lower-cased, with the query found at index 9. */
  lemma LowerContains(name: string, q: string)
    requires name == "Peito de Frango" && q == "frango"
    ensures Contains(ToLower(name), ToLower(q))
  {
    var lowerName := ToLower(name);
    assert lowerName == "peito de frango";
    var lowerQuery := ToLower(q);
    assert lowerQuery == "frango";
    assert OccursAt(lowerName, lowerQuery, 9);
  }

  /** "frango" and "FRANGO" give the same results, and both find chicken breast. */
  lemma SearchFrango()
    ensures SearchFood("FRANGO") == SearchFood("frango")
    ensures FoodDatabase[0].name == "Peito de Frango"
    ensures FoodDatabase[0] in SearchFood("frango")
  {
    assert ToLower("FRANGO") == "frango";
    assert ToLower("frango") == "frango";
    SearchCaseInsensitive("FRANGO", "frango");
    LowerContains(FoodDatabase[0].name, "frango");
  }

  /** The test `food.id === id`. */
  function HasId(id: string): Food -> bool {
    (f: Food) => f.id == id
  }

  /** `getFoodById` over an arbitrary table. */
  function FindById(table: seq<Food>, id: string): (r: Option<Food>)
    ensures r.None? <==> forall i :: 0 <= i < |table| ==> table[i].id != id
    ensures r.Some? ==>
      exists i :: 0 <= i < |table| && table[i] == r.value && r.value.id == id &&
                  (forall j :: 0 <= j < i ==> table[j].id != id)
  {
    FindFirst(table, HasId(id))
  }

  /** `getFoodById(id)`: the first table entry with that id, if any. */
  function GetFoodById(id: string): (r: Option<Food>)
    ensures r.None? <==> forall i :: 0 <= i < |FoodDatabase| ==> FoodDatabase[i].id != id
    ensures r.Some? ==>
      exists i :: 0 <= i < |FoodDatabase| && FoodDatabase[i] == r.value && r.value.id == id &&
                  (forall j :: 0 <= j < i ==> FoodDatabase[j].id != id)
  {
    FindById(FoodDatabase, id)
  }

  /** No two entries of `table` share an id. */
  predicate UniqueIds(table: seq<Food>) {
    forall i, j :: 0 <= i < j < |table| ==> table[i].id != table[j].id
  }

  /** In a table with unique ids, looking up an entry's id finds that entry. */
  lemma FindByIdOfEntry(table: seq<Food>, i: int)
    requires UniqueIds(table) && 0 <= i < |table|
    ensures FindById(table, table[i].id) == Some(table[i])
  {
  }

  /** No two catalog entries share an id. */
  lemma IdsDistinct()
    ensures UniqueIds(FoodDatabase)
  {
    assert forall i, j :: 0 <= i < j < |FoodDatabase| ==> FoodDatabase[i].id != FoodDatabase[j].id;
  }

  /** Looking up the id of any catalog entry returns that entry. */
  lemma GetFoodByIdOfEntry(i: int)
    requires 0 <= i < |FoodDatabase|
    ensures GetFoodById(FoodDatabase[i].id) == Some(FoodDatabase[i])
  {
    IdsDistinct();
    FindByIdOfEntry(FoodDatabase, i);
  }

  /** Every entry has non-negative calories, protein, carbs and fat. */
  lemma NutrientsNonNegative()
    ensures forall f :: f in FoodDatabase ==>
      f.calories >= 0.0 && f.protein >= 0.0 && f.carbs >= 0.0 && f.fat >= 0.0
  {
    assert forall i :: 0 <= i < |FoodDatabase| ==>
      FoodDatabase[i].calories >= 0.0 && FoodDatabase[i].protein >= 0.0 &&
      FoodDatabase[i].carbs >= 0.0 && FoodDatabase[i].fat >= 0.0;
  }
}

=== FILE: numbertext.dfy ===
/**
 Integers as text.  `setCalorieGoal` stores `goal.toString()` under its own
 key and `getCalorieGoal` reads it back with `parseInt`, falling back to 2000
 when the key is absent or empty; meal ids are `Date.now().toString()`.  This
 module models both conversions for integers and proves the round trip.
 */
module NumberText {
  import opened Types
  import opened Text

  /** The goal used when none has been stored. */
  const DefaultGoal: int := 2000

  predicate IsDigit(c: char) {
    '0' <= c <= '9'
  }

  function DigitChar(d: int): (c: char)
    requires 0 <= d < 10
    ensures IsDigit(c)
  {
    (d + '0' as int) as char
  }

  function DigitValue(c: char): int
    requires IsDigit(c)
  {
    c as int - '0' as int
  }

  /** Decimal numeral of a natural number, most significant digit first. */
  function NatToString(n: nat): (s: string)
    ensures |s| > 0
    ensures forall i :: 0 <= i < |s| ==> IsDigit(s[i])
    ensures s[0] == '0' <==> n == 0
  {
    if n < 10 then [DigitChar(n)]
    else NatToString(n / 10) + [DigitChar(n % 10)]
  }

  /** `Number.prototype.toString` on an integer: a minus sign for negatives. */
  function ToString(g: int): (s: string)
    ensures |s| > 0 && (s[0] == '-' <==> g < 0)
    ensures var start := if g < 0 then 1 else 0;
            && start < |s|
            && (forall i :: start <= i < |s| ==> IsDigit(s[i]))
            && (s[start] == '0' <==> g == 0)
  {
    if g < 0 then "-" + NatToString(-g) else NatToString(g)
  }

  /** Value of a non-empty run of decimal digits, read left to right. */
  function DigitsValue(s: string): nat
    requires forall i :: 0 <= i < |s| ==> IsDigit(s[i])
  {
    if |s| == 0 then 0
    else DigitsValue(s[..|s| - 1]) * 10 + DigitValue(s[|s| - 1])
  }

  /** Length of the longest prefix of `s` made of digits. */
  function DigitRun(s: string): (n: nat)
    ensures n <= |s|
    ensures forall i :: 0 <= i < n ==> IsDigit(s[i])
    ensures n < |s| ==> !IsDigit(s[n])
  {
    if |s| == 0 || !IsDigit(s[0]) then 0 else 1 + DigitRun(s[1..])
  }

  /** `parseInt(s)` in radix 10: leading whitespace, an optional sign, then the
      longest run of digits; `None` stands for NaN (no digit after the sign). */
  function ParseInt(s: string): Option<int>
  {
    if |s| > 0 && IsWhitespace(s[0]) then ParseInt(s[1..]) else ParseSigned(s)
  }

  /** `parseInt` once the leading whitespace is gone. */
  function ParseSigned(s: string): Option<int> {
    var neg := |s| > 0 && s[0] == '-';
    var body := if |s| > 0 && (s[0] == '-' || s[0] == '+') then s[1..] else s;
    var n := DigitRun(body);
    if n == 0 then None
    else
      var v: int := DigitsValue(body[..n]);
      Some(if neg then -v else v)
  }

  /** The goal read back from the stored text: `goal ? parseInt(goal) : 2000`. */
  function ReadGoal(stored: Option<string>): Option<int> {
    match stored
    case None => Some(DefaultGoal)
    case Some(text) => if text == "" then Some(DefaultGoal) else ParseInt(text)
  }

  /** Reading the digits of a numeral gives back the number. */
  lemma {:induction false} DigitsOfNat(n: nat)
    ensures DigitsValue(NatToString(n)) == n
  {
    if n >= 10 {
      var s := NatToString(n);
      var prefix := NatToString(n / 10);
      assert s == prefix + [DigitChar(n % 10)];
      assert s[..|s| - 1] == prefix;
      DigitsOfNat(n / 10);
    }
  }

  /** `parseInt` recovers an integer from its `toString` text. */
  lemma ParseIntToString(g: int)
    ensures ParseInt(ToString(g)) == Some(g)
  {
    assert ToString(g) + "" == ToString(g);
    ParseIntIgnoresTail(g, "");
  }

  /** A stored goal reads back as the integer that was stored. */
  lemma GoalRoundTrip(g: int)
    ensures ReadGoal(Some(ToString(g))) == Some(g)
  {
    ParseIntToString(g);
  }

  /** `parseInt` stops at the first character after the digits, so a numeral
      followed by text that does not start with a digit (".5", "e3", " kcal")
      still reads as the numeral's integer. */
  lemma ParseIntIgnoresTail(g: int, tail: string)
    requires |tail| == 0 || !IsDigit(tail[0])
    ensures ParseInt(ToString(g) + tail) == Some(g)
  {
    var text := ToString(g) + tail;
    assert text[0] == '-' || IsDigit(text[0]);
    ParseIntNoSpace(text);
    ParseSignedToString(g, tail);
  }

  /** The sign and digits of `g.toString()`, followed by a non-digit, read
      back as `g`. */
  lemma ParseSignedToString(g: int, tail: string)
    requires |tail| == 0 || !IsDigit(tail[0])
    ensures ParseSigned(ToString(g) + tail) == Some(g)
  {
    var n: nat := if g < 0 then -g else g;
    var body := NatToString(n) + tail;
    var text := ToString(g) + tail;
    DigitRunOfDigits(NatToString(n), tail);
    assert body[..|NatToString(n)|] == NatToString(n);
    DigitsOfNat(n);
    if g < 0 {
      assert ToString(g) == "-" + NatToString(n);
      assert text == "-" + body;
    } else {
      assert text == body;
    }
    ParseSignedOf(text, g < 0, body, n);
  }

  /** Text that starts with a minus sign or a digit has no whitespace to skip. */
  lemma ParseIntNoSpace(s: string)
    requires |s| > 0 && (s[0] == '-' || IsDigit(s[0]))
    ensures ParseInt(s) == ParseSigned(s)
  {
  }

  /** `ParseSigned` reads the sign, then the value of the digit run after it. */
  lemma ParseSignedOf(s: string, neg: bool, body: string, v: nat)
    requires neg ==> s == "-" + body
    requires !neg ==> s == body && |s| > 0 && s[0] != '-' && s[0] != '+'
    requires 0 < DigitRun(body) && DigitsValue(body[..DigitRun(body)]) == v
    ensures ParseSigned(s) == Some(if neg then -(v as int) else v as int)
  {
  }

  /** A digit run ends exactly where the digits end. */
  lemma {:induction false} DigitRunOfDigits(digits: string, tail: string)
    requires forall i :: 0 <= i < |digits| ==> IsDigit(digits[i])
    requires |tail| == 0 || !IsDigit(tail[0])
    ensures DigitRun(digits + tail) == |digits|
  {
    if |digits| > 0 {
      assert (digits + tail)[1..] == digits[1..] + tail;
      DigitRunOfDigits(digits[1..], tail);
    } else {
      assert digits + tail == tail;
    }
  }

  /** Text with no digit after its sign, such as the "NaN" that `toString`
      gives for a cleared goal field, reads back as NaN rather than 2000. */
  lemma ReadGoalOfNaNText()
    ensures ReadGoal(Some("NaN")) == None
    ensures ReadGoal(Some("")) == Some(DefaultGoal)
  {
  }

  /** Different integers have different text. */
  lemma ToStringInjective(a: int, b: int)
    requires ToString(a) == ToString(b)
    ensures a == b
  {
    ParseIntToString(a);
    ParseIntToString(b);
  }
}

=== FILE: page.dfy ===
/**
 The pure logic inside the page's event handlers: the blank-query guard on
 search, building a meal from a selected food or an imported recipe, and the
 dashboard figures.  React state becomes explicit parameters and results;
 each `Date.now()` reading is a separate integer parameter because the
 handlers read the clock once per field.
 */
module Page {
  import opened Types
  import opened Text
  import opened Totals
  import opened Catalog
  import opened Storage
  import NumberText

  /** The tabs of the add-meal panel. */
  datatype Tab = ManualTab | PhotoTab | RecipeTab

  /** `handleSearch(query)`: the results list shown for a query. */
  function HandleSearch(q: string): (r: seq<Food>)
    ensures (forall i :: 0 <= i < |q| ==> IsWhitespace(q[i])) ==> r == []
    ensures (exists i :: 0 <= i < |q| && !IsWhitespace(q[i])) ==> r == SearchFood(q)
  {
    TrimEmptyIffBlank(q);
    if |Trim(q)| > 0 then SearchFood(q) else []
  }

  /** The source recorded for a meal added from `tab`. */
  function SourceForTab(tab: Tab): (r: Source)
    ensures r != Voice
    ensures r == Photo <==> tab == PhotoTab
    ensures r == Recipe <==> tab == RecipeTab
    ensures r == Manual <==> tab == ManualTab
  {
    match tab
    case PhotoTab => Photo
    case RecipeTab => Recipe
    case ManualTab => Manual
  }

  /** The meal `handleAddMeal` builds from a selected food.  `idStamp` and
      `timestamp` are the two clock readings it takes. */
  function MealFromFood(food: Food, quantity: real, mealType: MealType, tab: Tab,
                        idStamp: int, timestamp: int): (m: Meal)
    ensures m.foodId == food.id && m.foodName == food.name && m.serving == food.serving
    ensures m.calories == food.calories && m.protein == food.protein
    ensures m.carbs == food.carbs && m.fat == food.fat
    ensures m.quantity == quantity && m.mealType == mealType && m.timestamp == timestamp
    ensures m.source == SourceForTab(tab) && m.source != Voice
    ensures NumberText.ParseInt(m.id) == Some(idStamp)
  {
    NumberText.ParseIntToString(idStamp);
    Meal(NumberText.ToString(idStamp), food.id, food.name, food.calories, food.protein,
         food.carbs, food.fat, food.serving, quantity, timestamp, mealType, SourceForTab(tab))
  }

  /** A meal built from a food adds that food's values scaled by the quantity. */
  lemma MealFromFoodContribution(food: Food, quantity: real, mealType: MealType, tab: Tab,
                                 idStamp: int, timestamp: int)
    ensures var m := MealFromFood(food, quantity, mealType, tab, idStamp, timestamp);
            && Contribution(m, Calories) == food.calories * quantity
            && Contribution(m, Protein) == food.protein * quantity
            && Contribution(m, Carbs) == food.carbs * quantity
            && Contribution(m, Fat) == food.fat * quantity
  {
  }

  /** Meals created at different clock readings get different ids. */
  lemma MealIdsFromDistinctStamps(f1: Food, f2: Food, q1: real, q2: real, t1: MealType, t2: MealType,
                                  tab1: Tab, tab2: Tab, id1: int, id2: int, ts1: int, ts2: int)
    requires id1 != id2
    ensures MealFromFood(f1, q1, t1, tab1, id1, ts1).id != MealFromFood(f2, q2, t2, tab2, id2, ts2).id
  {
  }

  /** `handleAddMeal`: nothing without a selected food, otherwise the built
      meal is saved to today's log. */
  function HandleAddMeal(s: Store, today: string, selected: Option<Food>, quantity: real,
                         mealType: MealType, tab: Tab, idStamp: int, timestamp: int): (r: Store)
    ensures selected.None? ==> r == s
    ensures selected.Some? ==>
      && today in Logs(r)
      && Logs(r)[today].meals == GetDailyLog(s, today).meals +
           [MealFromFood(selected.value, quantity, mealType, tab, idStamp, timestamp)]
      && Consistent(Logs(r)[today])
      && Logs(r)[today].date == GetDailyLog(s, today).date
      && Logs(r)[today].calorieGoal == GetDailyLog(s, today).calorieGoal
    ensures selected.Some? ==> Logs(r).Keys == Logs(s).Keys + {today}
    ensures r.goal == s.goal
    ensures forall d :: d in Logs(s) && d != today ==> d in Logs(r) && Logs(r)[d] == Logs(s)[d]
  {
    match selected
    case None => s
    case Some(food) => SaveMeal(s, today, MealFromFood(food, quantity, mealType, tab, idStamp, timestamp))
  }

  /** JavaScript `Math.round`: the nearest integer, halves rounded up. */
  function Round(x: real): (r: int)
    ensures r as real - 0.5 <= x < r as real + 0.5
  {
    (x + 0.5).Floor
  }

  /** What `analyzeRecipeFromUrl` hands to the page: whole-recipe totals and
      the number of servings they cover. */
  datatype RecipeSummary = RecipeSummary(
    name: string,
    ingredients: seq<string>,
    totalCalories: real,
    totalProtein: real,
    totalCarbs: real,
    totalFat: real,
    servings: real)

  /** The fixed summary the recipe analyser returns for every URL. */
  const MockRecipe: RecipeSummary :=
    RecipeSummary("Receita Importada", ["Ingrediente 1", "Ingrediente 2", "Ingrediente 3"],
                  450.0, 25.0, 40.0, 15.0, 2.0)

  /** `value` is a whole number within half a unit of `exact`, ties up. */
  predicate RoundedFrom(value: real, exact: real) {
    value == value.Floor as real && value - 0.5 <= exact < value + 0.5
  }

  /** The single meal `handleRecipeImported` logs for a recipe: one serving,
      each value the rounded per-serving share.  The three stamps are the
      clock readings for the id, the food id and the timestamp. */
  function RecipeMeal(recipe: RecipeSummary, mealType: MealType,
                      idStamp: int, foodIdStamp: int, timestamp: int): (m: Meal)
    requires recipe.servings != 0.0
    ensures m.quantity == 1.0 && m.source == Recipe && m.mealType == mealType
    ensures m.foodName == recipe.name && m.serving == "1 porção" && m.timestamp == timestamp
    ensures m.foodId == "recipe-" + NumberText.ToString(foodIdStamp)
    ensures RoundedFrom(m.calories, recipe.totalCalories / recipe.servings)
    ensures RoundedFrom(m.protein, recipe.totalProtein / recipe.servings)
    ensures RoundedFrom(m.carbs, recipe.totalCarbs / recipe.servings)
    ensures RoundedFrom(m.fat, recipe.totalFat / recipe.servings)
    ensures NumberText.ParseInt(m.id) == Some(idStamp)
  {
    NumberText.ParseIntToString(idStamp);
    Meal(NumberText.ToString(idStamp), "recipe-" + NumberText.ToString(foodIdStamp), recipe.name,
         Round(recipe.totalCalories / recipe.servings) as real,
         Round(recipe.totalProtein / recipe.servings) as real,
         Round(recipe.totalCarbs / recipe.servings) as real,
         Round(recipe.totalFat / recipe.servings) as real,
         "1 porção", 1.0, timestamp, mealType, Recipe)
  }

  /** Only one whole number lies within half a unit of a value, ties up. */
  lemma RoundedFromUnique(a: real, b: real, exact: real)
    requires RoundedFrom(a, exact) && RoundedFrom(b, exact)
    ensures a == b
  {
    var ia := a.Floor;
    var ib := b.Floor;
    assert ia as real - 0.5 <= exact < ia as real + 0.5;
    assert ib as real - 0.5 <= exact < ib as real + 0.5;
    assert ia - ib < 1 && ib - ia < 1;
  }

  /** The fixed recipe splits into 225 kcal, 13 g protein, 20 g carbs and
      8 g fat per serving. */
  lemma MockRecipePerServing(mealType: MealType, idStamp: int, foodIdStamp: int, timestamp: int)
    ensures var m := RecipeMeal(MockRecipe, mealType, idStamp, foodIdStamp, timestamp);
            m.calories == 225.0 && m.protein == 13.0 && m.carbs == 20.0 && m.fat == 8.0
  {
  }

  /** `handleRecipeImported`: the recipe's meal is saved to today's log. */
  function HandleRecipeImported(s: Store, today: string, recipe: RecipeSummary, mealType: MealType,
                                idStamp: int, foodIdStamp: int, timestamp: int): (r: Store)
    requires recipe.servings != 0.0
    ensures Logs(r).Keys == Logs(s).Keys + {today}
    ensures Logs(r)[today].meals == GetDailyLog(s, today).meals +
              [RecipeMeal(recipe, mealType, idStamp, foodIdStamp, timestamp)]
    ensures Consistent(Logs(r)[today])
    ensures forall d :: d in Logs(s) && d != today ==> Logs(r)[d] == Logs(s)[d]
    ensures r.goal == s.goal
    ensures Logs(r)[today].date == GetDailyLog(s, today).date
    ensures Logs(r)[today].calorieGoal == GetDailyLog(s, today).calorieGoal
  {
    SaveMeal(s, today, RecipeMeal(recipe, mealType, idStamp, foodIdStamp, timestamp))
  }

  /** `Math.min(totalCalories / calorieGoal * 100, 100)`.  A zero goal
      divides by zero: a positive total gives Infinity, clamped to 100, and
      otherwise the result (NaN or -Infinity) is not a finite number, `None`. */
  function CaloriePercentage(total: real, goal: int): (r: Option<real>)
    ensures r.Some? ==> r.value <= 100.0
    ensures r.None? <==> goal == 0 && total <= 0.0
    ensures goal > 0 && total >= 0.0 ==> r.Some? && r.value >= 0.0
    ensures goal > 0 ==> (r == Some(100.0) <==> total >= goal as real)
    ensures goal > 0 && total < goal as real ==> r.Some? && r.value * goal as real == total * 100.0
    ensures goal == 0 && total > 0.0 ==> r == Some(100.0)
    ensures goal != 0 ==> r.Some? && (r.value == 100.0 <==> total / goal as real >= 1.0)
    ensures goal != 0 && total / goal as real < 1.0 ==> r.Some? && r.value * goal as real == total * 100.0
    ensures goal != 0 && total / goal as real >= 0.0 ==> r.Some? && r.value >= 0.0
  {
    if goal == 0 then (if total > 0.0 then Some(100.0) else None)
    else
      var p := total / goal as real * 100.0;
      Some(if p < 100.0 then p else 100.0)
  }

  /** `calorieGoal - totalCalories`; negative once the goal is exceeded. */
  function RemainingCalories(total: real, goal: int): (r: real)
    ensures total + r == goal as real
    ensures r < 0.0 <==> total > goal as real
  {
    goal as real - total
  }

  /** With a positive goal the bar is full exactly when nothing remains. */
  lemma FullBarIffNothingRemains(total: real, goal: int)
    requires goal != 0
    ensures goal > 0 ==> (CaloriePercentage(total, goal) == Some(100.0) <==> RemainingCalories(total, goal) <= 0.0)
    ensures goal < 0 ==> (CaloriePercentage(total, goal) == Some(100.0) <==> RemainingCalories(total, goal) >= 0.0)
    ensures RemainingCalories(total, goal) < 0.0 <==> total > goal as real
  {
  }

  /** The user actions that change the store, as the page dispatches them. */
  datatype Action =
    | AddFood(today: string, selected: Option<Food>, quantity: real, mealType: MealType, tab: Tab,
              idStamp: int, timestamp: int)
    | ImportRecipe(today: string, recipe: RecipeSummary, mealType: MealType,
                   idStamp: int, foodIdStamp: int, timestamp: int)
    | DeleteAction(today: string, mealId: string)
    | UpdateGoal(goal: int)

  /** An action the model covers: imported recipes have a non-zero serving count. */
  predicate Supported(a: Action) {
    a.ImportRecipe? ==> a.recipe.servings != 0.0
  }

  function Dispatch(s: Store, a: Action): Store
    requires Supported(a)
  {
    match a
    case AddFood(today, selected, quantity, mealType, tab, idStamp, timestamp) =>
      HandleAddMeal(s, today, selected, quantity, mealType, tab, idStamp, timestamp)
    case ImportRecipe(today, recipe, mealType, idStamp, foodIdStamp, timestamp) =>
      HandleRecipeImported(s, today, recipe, mealType, idStamp, foodIdStamp, timestamp)
    case DeleteAction(today, mealId) => DeleteMeal(s, today, mealId)
    case UpdateGoal(g) => SetCalorieGoal(s, g)
  }

  /** Applies `actions` in order. */
  function DispatchAll(s: Store, actions: seq<Action>): Store
    requires forall i :: 0 <= i < |actions| ==> Supported(actions[i])
    decreases |actions|
  {
    if |actions| == 0 then s else DispatchAll(Dispatch(s, actions[0]), actions[1..])
  }

  /** No persisted meal has source 'voice'. */
  predicate NoVoiceMeals(s: Store) {
    forall d, i :: d in Logs(s) && 0 <= i < |Logs(s)[d].meals| ==> Logs(s)[d].meals[i].source != Voice
  }

  /** Saving a meal that is not from voice keeps the store free of voice meals. */
  lemma SaveKeepsNoVoice(s: Store, today: string, meal: Meal)
    requires NoVoiceMeals(s) && meal.source != Voice
    ensures NoVoiceMeals(SaveMeal(s, today, meal))
  {
    var r := SaveMeal(s, today, meal);
    forall d, i | d in Logs(r) && 0 <= i < |Logs(r)[d].meals|
      ensures Logs(r)[d].meals[i].source != Voice
    {
      if d != today {
        assert Logs(r)[d] == Logs(s)[d];
      } else {
        var before := GetDailyLog(s, d).meals;
        if i < |before| {
          assert Logs(r)[d].meals[i] == before[i];
        }
      }
    }
  }

  /** Deleting keeps the store free of voice meals. */
  lemma DeleteKeepsNoVoice(s: Store, today: string, mealId: string)
    requires NoVoiceMeals(s)
    ensures NoVoiceMeals(DeleteMeal(s, today, mealId))
  {
    var r := DeleteMeal(s, today, mealId);
    forall d, i | d in Logs(r) && 0 <= i < |Logs(r)[d].meals|
      ensures Logs(r)[d].meals[i].source != Voice
    {
      var m := Logs(r)[d].meals[i];
      assert m in Logs(r)[d].meals;
      if d != today {
        assert Logs(r)[d] == Logs(s)[d];
      } else {
        assert m in Logs(s)[d].meals;
      }
    }
  }

  /** No page action stores a meal with source 'voice'. */
  lemma DispatchKeepsNoVoice(s: Store, a: Action)
    requires Supported(a) && NoVoiceMeals(s)
    ensures NoVoiceMeals(Dispatch(s, a))
  {
    match a
    case AddFood(today, selected, quantity, mealType, tab, idStamp, timestamp) =>
      if selected.Some? {
        SaveKeepsNoVoice(s, today, MealFromFood(selected.value, quantity, mealType, tab, idStamp, timestamp));
      }
    case ImportRecipe(today, recipe, mealType, idStamp, foodIdStamp, timestamp) =>
      SaveKeepsNoVoice(s, today, RecipeMeal(recipe, mealType, idStamp, foodIdStamp, timestamp));
    case DeleteAction(today, mealId) =>
      DeleteKeepsNoVoice(s, today, mealId);
    case UpdateGoal(g) =>
      assert Logs(Dispatch(s, a)) == Logs(s);
  }

  /** From a store without voice meals, no sequence of page actions creates one. */
  lemma {:induction false} DispatchAllKeepsNoVoice(s: Store, actions: seq<Action>)
    requires forall i :: 0 <= i < |actions| ==> Supported(actions[i])
    requires NoVoiceMeals(s)
    ensures NoVoiceMeals(DispatchAll(s, actions))
    decreases |actions|
  {
    if |actions| > 0 {
      DispatchKeepsNoVoice(s, actions[0]);
      DispatchAllKeepsNoVoice(Dispatch(s, actions[0]), actions[1..]);
    }
  }

  /** Starting from an untouched store, the page never stores a voice meal. */
  lemma PageNeverStoresVoice(actions: seq<Action>)
    requires forall i :: 0 <= i < |actions| ==> Supported(actions[i])
    ensures NoVoiceMeals(DispatchAll(EmptyStore, actions))
  {
    DispatchAllKeepsNoVoice(EmptyStore, actions);
  }

  /** The first meal saved for a date with no log makes each total that
      meal's contribution. */
  lemma FirstMealTotals(s: Store, today: string, m: Meal, k: Nutrient)
    requires today !in Logs(s)
    ensures Logs(SaveMeal(s, today, m))[today].meals == [m]
    ensures TotalOf(Logs(SaveMeal(s, today, m))[today], k) == Contribution(m, k)
  {
    SumAppend([], m, k);
    assert [] + [m] == [m];
  }

  /** Catalog id "2" is the egg: 155 kcal, 13 g protein, 1.1 g carbs, 11 g fat. */
  lemma EggEntry()
    ensures GetFoodById("2") == Some(FoodDatabase[1])
    ensures FoodDatabase[1].calories == 155.0 && FoodDatabase[1].protein == 13.0
    ensures FoodDatabase[1].carbs == 1.1 && FoodDatabase[1].fat == 11.0
  {
  }

  /** Logging two eggs for breakfast in an empty store: 310 kcal, 26 g
      protein, 2.2 g carbs and 22 g fat. */
  lemma TwoEggsScenario(today: string, idStamp: int, timestamp: int)
    ensures var s := HandleAddMeal(EmptyStore, today, GetFoodById("2"), 2.0, Breakfast, ManualTab,
                                   idStamp, timestamp);
            var log := Logs(s)[today];
            && log.totalCalories == 310.0 && log.totalProtein == 26.0
            && log.totalCarbs == 2.2 && log.totalFat == 22.0
  {
    EggEntry();
    var egg := FoodDatabase[1];
    var m := MealFromFood(egg, 2.0, Breakfast, ManualTab, idStamp, timestamp);
    MealFromFoodContribution(egg, 2.0, Breakfast, ManualTab, idStamp, timestamp);
    FirstMealTotals(EmptyStore, today, m, Calories);
    FirstMealTotals(EmptyStore, today, m, Protein);
    FirstMealTotals(EmptyStore, today, m, Carbs);
    FirstMealTotals(EmptyStore, today, m, Fat);
  }

  /** Adding two meals with different ids and deleting the first leaves
      totals equal to the second meal's contribution alone. */
  lemma AddTwoDeleteFirst(s: Store, today: string, m1: Meal, m2: Meal, k: Nutrient)
    requires today !in Logs(s)
    requires m1.id != m2.id
    ensures var after := DeleteMeal(SaveMeal(SaveMeal(s, today, m1), today, m2), today, m1.id);
            && Logs(after)[today].meals == [m2]
            && TotalOf(Logs(after)[today], k) == Contribution(m2, k)
  {
    var s2 := SaveMeal(SaveMeal(s, today, m1), today, m2);
    SaveTwoFresh(s, today, m1, m2);
    WithoutFirstOfTwo(m1, m2);
    var after := DeleteMeal(s2, today, m1.id);
    assert Logs(after)[today].meals == [m2];
    SumAppend([], m2, k);
    assert [] + [m2] == [m2];
  }

  /** Two saves to a date with no log leave exactly those two meals, in order. */
  lemma SaveTwoFresh(s: Store, today: string, m1: Meal, m2: Meal)
    requires today !in Logs(s)
    ensures Logs(SaveMeal(SaveMeal(s, today, m1), today, m2))[today].meals == [m1, m2]
  {
    var s1 := SaveMeal(s, today, m1);
    assert Logs(s1)[today].meals == [m1] by {
      assert [] + [m1] == [m1];
    }
    assert [m1] + [m2] == [m1, m2];
  }
}

=== FILE: seqs.dfy ===
/**
 Order-preserving filtering and first-match search over sequences: the two
 array methods (`filter`, `find`) that the store and the catalog are built on.
 */
module Seqs {
  import opened Types

  /** `a` can be obtained from `b` by deleting elements, keeping order. */
  predicate IsSubseq<T(==,!new)>(a: seq<T>, b: seq<T>)
    decreases |b|
  {
    if |a| == 0 then true
    else if |b| == 0 then false
    else if a[0] == b[0] then IsSubseq(a[1..], b[1..])
    else IsSubseq(a, b[1..])
  }

  /** The elements of `s` satisfying `p`, in their original order. */
  function Filter<T(==,!new)>(s: seq<T>, p: T -> bool): (r: seq<T>)
    ensures |r| <= |s|
    ensures forall x :: x in r <==> x in s && p(x)
    ensures IsSubseq(r, s)
    ensures forall x :: multiset(r)[x] == if p(x) then multiset(s)[x] else 0
  {
    if |s| == 0 then []
    else
      assert s == [s[0]] + s[1..];
      if p(s[0]) then [s[0]] + Filter(s[1..], p)
      else Filter(s[1..], p)
  }

  /** Filtering distributes over concatenation, so the kept elements of an
      earlier block precede those of a later one. */
  lemma {:induction false} FilterConcat<T(!new)>(a: seq<T>, b: seq<T>, p: T -> bool)
    ensures Filter(a + b, p) == Filter(a, p) + Filter(b, p)
  {
    if |a| == 0 {
      assert a + b == b;
    } else {
      assert (a + b)[1..] == a[1..] + b;
      FilterConcat(a[1..], b, p);
    }
  }

  /** A sequence all of whose elements pass the test is returned unchanged. */
  lemma {:induction false} FilterKeepsAll<T(!new)>(s: seq<T>, p: T -> bool)
    requires forall i :: 0 <= i < |s| ==> p(s[i])
    ensures Filter(s, p) == s
  {
    if |s| > 0 {
      FilterKeepsAll(s[1..], p);
    }
  }

  /** Filtering twice by the same test is filtering once. */
  lemma {:induction false} FilterIdempotent<T(!new)>(s: seq<T>, p: T -> bool)
    ensures Filter(Filter(s, p), p) == Filter(s, p)
  {
    var r := Filter(s, p);
    assert forall i :: 0 <= i < |r| ==> r[i] in r;
    FilterKeepsAll(r, p);
  }

  /** The first element of `s` satisfying `p`, if any. */
  function FindFirst<T>(s: seq<T>, p: T -> bool): (r: Option<T>)
    ensures r.None? <==> forall i :: 0 <= i < |s| ==> !p(s[i])
    ensures r.Some? ==>
      exists i :: 0 <= i < |s| && s[i] == r.value && p(s[i]) &&
                  (forall j :: 0 <= j < i ==> !p(s[j]))
  {
    if |s| == 0 then None
    else if p(s[0]) then Some(s[0])
    else
      var r := FindFirst(s[1..], p);
      assert r.Some? ==>
        exists i :: 1 <= i < |s| && s[i] == r.value && p(s[i]) &&
                    (forall j :: 0 <= j < i ==> !p(s[j]));
      r
  }
}

=== FILE: storage.dfy ===
/**
 The daily-log store.  The browser's key-value storage holds two entries: a
 blob mapping date strings to daily logs, and the calorie goal.  Here the
 blob is `Option<map<string, DailyLog>>` (`None` when the key was never
 written) and the goal is `Option<int>` (`None` when never set; its text
 form is modelled in `NumberText`).  Every operation is a pure function from
 the store before to the value read or the store after.  Writes always go
 to the date passed as `today`, which stands for the clock reading the
 store functions take inside each call.
 */
module Storage {
  import opened Types
  import opened Totals
  import NumberText

  datatype Store = Store(data: Option<map<string, DailyLog>>, goal: Option<int>)

  /** A store nothing has been written to. */
  const EmptyStore: Store := Store(None, None)

  /** The persisted logs, with an absent blob read as no logs at all. */
  function Logs(s: Store): map<string, DailyLog> {
    s.data.GetOr(map[])
  }

  /** The text the goal key holds: `goal.toString()` once a goal was set. */
  function GoalText(s: Store): Option<string> {
    match s.goal
    case None => None
    case Some(g) => Some(NumberText.ToString(g))
  }

  /** `getCalorieGoal`: the stored goal, or 2000 when none was stored.  The
      integer kept here is what `parseInt` reads back from the key's text. */
  function GetCalorieGoal(s: Store): (g: int)
    ensures NumberText.ReadGoal(GoalText(s)) == Some(g)
  {
    match s.goal
    case None => NumberText.DefaultGoal
    case Some(stored) =>
      NumberText.GoalRoundTrip(stored);
      stored
  }

  /** `setCalorieGoal`: replaces the goal; the logs are not touched. */
  function SetCalorieGoal(s: Store, g: int): (r: Store)
    ensures r.data == s.data
    ensures GetCalorieGoal(r) == g
  {
    s.(goal := Some(g))
  }

  /** `createEmptyLog`: no meals, zero totals, the goal current in `s`. */
  function CreateEmptyLog(s: Store, date: string): (r: DailyLog)
    ensures r.date == date && r.meals == []
    ensures Consistent(r)
    ensures r.calorieGoal == GetCalorieGoal(s)
  {
    DailyLog(date, [], 0.0, 0.0, 0.0, 0.0, GetCalorieGoal(s))
  }

  /** `getDailyLog(date)`: the stored log for `date`, or a fresh empty one
      that is not persisted. */
  function GetDailyLog(s: Store, date: string): (r: DailyLog)
    ensures date in Logs(s) ==> r == Logs(s)[date]
    ensures date !in Logs(s) ==>
      r.date == date && r.meals == [] && r.calorieGoal == GetCalorieGoal(s) &&
      r.totalCalories == 0.0 && r.totalProtein == 0.0 && r.totalCarbs == 0.0 && r.totalFat == 0.0
  {
    match s.data
    case None => CreateEmptyLog(s, date)
    case Some(all) => if date in all then all[date] else CreateEmptyLog(s, date)
  }

  /** `saveMeal(meal)`: appends to today's log (created if absent), recomputes
      its totals and persists the whole mapping. */
  function SaveMeal(s: Store, today: string, meal: Meal): (r: Store)
    ensures r.goal == s.goal && r.data.Some?
    ensures Logs(r).Keys == Logs(s).Keys + {today}
    ensures var before := GetDailyLog(s, today);
            var after := Logs(r)[today];
            && after.meals == before.meals + [meal]
            && after.date == before.date
            && after.calorieGoal == before.calorieGoal
            && Consistent(after)
    ensures forall d :: d in Logs(s) && d != today ==> Logs(r)[d] == Logs(s)[d]
  {
    var all := Logs(s);
    var current := GetDailyLog(s, today);
    var updated := Recompute(current.(meals := current.meals + [meal]));
    Store(Some(all[today := updated]), s.goal)
  }

  /** `deleteMeal(mealId)`: when a blob exists and holds a log for today,
      drops every meal with that id, recomputes the totals and persists;
      otherwise the store is left exactly as it was. */
  function DeleteMeal(s: Store, today: string, mealId: string): (r: Store)
    ensures r.goal == s.goal
    ensures today !in Logs(s) ==> r == s
    ensures today in Logs(s) ==>
      && r.data.Some?
      && Logs(r).Keys == Logs(s).Keys
      && Logs(r)[today].meals == Without(Logs(s)[today].meals, mealId)
      && Logs(r)[today].date == Logs(s)[today].date
      && Logs(r)[today].calorieGoal == Logs(s)[today].calorieGoal
      && Consistent(Logs(r)[today])
    ensures forall d :: d in Logs(s) && d != today ==> Logs(r)[d] == Logs(s)[d]
  {
    match s.data
    case None => s
    case Some(all) =>
      if today !in all then s
      else
        var current := all[today];
        var updated := Recompute(current.(meals := Without(current.meals, mealId)));
        Store(Some(all[today := updated]), s.goal)
  }

  /** Every persisted log's totals agree with its meals. */
  predicate WellFormed(s: Store) {
    forall d :: d in Logs(s) ==> Consistent(Logs(s)[d])
  }

  /** The state-changing calls the application makes on the store. */
  datatype Op =
    | SaveOp(today: string, meal: Meal)
    | DeleteOp(today: string, mealId: string)
    | SetGoalOp(goal: int)

  function Apply(s: Store, op: Op): Store {
    match op
    case SaveOp(today, meal) => SaveMeal(s, today, meal)
    case DeleteOp(today, mealId) => DeleteMeal(s, today, mealId)
    case SetGoalOp(g) => SetCalorieGoal(s, g)
  }

  /** Applies `ops` in order. */
  function Run(s: Store, ops: seq<Op>): Store
    decreases |ops|
  {
    if |ops| == 0 then s else Run(Apply(s, ops[0]), ops[1..])
  }

  /** Each operation keeps every persisted log's totals equal to the
      reduction over its meals. */
  lemma ApplyPreservesWellFormed(s: Store, op: Op)
    requires WellFormed(s)
    ensures WellFormed(Apply(s, op))
  {
    var r := Apply(s, op);
    forall d | d in Logs(r)
      ensures Consistent(Logs(r)[d])
    {
      match op
      case SaveOp(today, meal) =>
        if d != today {
          assert Logs(r)[d] == Logs(s)[d];
        }
      case DeleteOp(today, mealId) =>
        if d != today {
          assert Logs(r)[d] == Logs(s)[d];
        }
      case SetGoalOp(g) =>
        assert Logs(r) == Logs(s);
    }
  }

  /** The totals invariant holds after any sequence of adds, deletes and
      goal changes. */
  lemma {:induction false} RunPreservesWellFormed(s: Store, ops: seq<Op>)
    requires WellFormed(s)
    ensures WellFormed(Run(s, ops))
    decreases |ops|
  {
    if |ops| > 0 {
      ApplyPreservesWellFormed(s, ops[0]);
      RunPreservesWellFormed(Apply(s, ops[0]), ops[1..]);
    }
  }

  /** Starting from an untouched store, every reachable store is well formed. */
  lemma ReachableWellFormed(ops: seq<Op>)
    ensures WellFormed(Run(EmptyStore, ops))
  {
    RunPreservesWellFormed(EmptyStore, ops);
  }

  /** Reading a date with no persisted log yields an empty log carrying the
      goal most recently set. */
  lemma FreshLogTakesLatestGoal(s: Store, g: int, date: string)
    requires date !in Logs(s)
    ensures GetDailyLog(SetCalorieGoal(s, g), date).calorieGoal == g
    ensures GetDailyLog(SetCalorieGoal(s, g), date).meals == []
  {
  }

  /** A log that has been persisted keeps the goal captured when it was
      created: a later goal change does not reach it. */
  lemma PersistedLogKeepsGoal(s: Store, g: int, date: string)
    requires date in Logs(s)
    ensures GetDailyLog(SetCalorieGoal(s, g), date) == GetDailyLog(s, date)
  {
  }

  /** Deleting an id that does not occur in today's consistent log leaves
      the store exactly as it was. */
  lemma DeleteAbsentIsNoOp(s: Store, today: string, mealId: string)
    requires today in Logs(s) ==>
      Consistent(Logs(s)[today]) &&
      forall i :: 0 <= i < |Logs(s)[today].meals| ==> Logs(s)[today].meals[i].id != mealId
    ensures DeleteMeal(s, today, mealId) == s
  {
    if today in Logs(s) {
      var current := Logs(s)[today];
      WithoutAbsent(current.meals, mealId);
      RecomputeConsistent(current);
      assert current.(meals := Without(current.meals, mealId)) == current;
      assert Logs(s)[today := current] == Logs(s);
    }
  }

  /** Deleting an id that does not occur in today's log keeps its meals as
      they were, whatever its totals held. */
  lemma DeleteAbsentKeepsMeals(s: Store, today: string, mealId: string)
    requires today in Logs(s)
    requires forall i :: 0 <= i < |Logs(s)[today].meals| ==> Logs(s)[today].meals[i].id != mealId
    ensures Logs(DeleteMeal(s, today, mealId))[today].meals == Logs(s)[today].meals
  {
    WithoutAbsent(Logs(s)[today].meals, mealId);
  }

  /** Deleting the same id twice has the effect of deleting it once. */
  lemma DeleteTwice(s: Store, today: string, mealId: string)
    ensures DeleteMeal(DeleteMeal(s, today, mealId), today, mealId) == DeleteMeal(s, today, mealId)
  {
    var once := DeleteMeal(s, today, mealId);
    if today in Logs(s) {
      var log := Logs(once)[today];
      WithoutTwice(Logs(s)[today].meals, mealId);
      assert forall i :: 0 <= i < |log.meals| ==> log.meals[i] in log.meals;
      DeleteAbsentIsNoOp(once, today, mealId);
    }
  }

  /** With a consistent log for today, saving a meal raises each total by
      exactly that meal's value times its quantity. */
  lemma SaveMealAddsContribution(s: Store, today: string, meal: Meal, k: Nutrient)
    requires Consistent(GetDailyLog(s, today))
    ensures TotalOf(Logs(SaveMeal(s, today, meal))[today], k) ==
            TotalOf(GetDailyLog(s, today), k) + Contribution(meal, k)
  {
  }

  /** No goal stored reads as 2000; a stored goal reads back, through its
      text form, as the integer that was set. */
  lemma GoalDefaultAndRoundTrip(s: Store, g: int)
    ensures GetCalorieGoal(EmptyStore) == 2000
    ensures NumberText.ReadGoal(None) == Some(GetCalorieGoal(EmptyStore))
    ensures NumberText.ReadGoal(Some(NumberText.ToString(g))) == Some(GetCalorieGoal(SetCalorieGoal(s, g)))
  {
    NumberText.GoalRoundTrip(g);
  }
}

=== FILE: text.dfy ===
/**
 The string primitives of the JavaScript runtime the application relies on:
 `trim`, `toLowerCase` and `includes`.  Strings are sequences of code points.
 */
module Text {

  /** ECMAScript WhiteSpace and LineTerminator code points, the set `trim`
      removes and `parseInt` skips. */
  predicate IsWhitespace(c: char) {
    c == '\t' || c == '\n' || c == '\U{B}' || c == '\U{C}' || c == '\r' || c == ' '
    || c == '\U{A0}' || c == '\U{1680}' || ('\U{2000}' <= c <= '\U{200A}')
    || c == '\U{2028}' || c == '\U{2029}' || c == '\U{202F}' || c == '\U{205F}'
    || c == '\U{3000}' || c == '\U{FEFF}'
  }

  /** `s` with leading whitespace removed. */
  function TrimStart(s: string): (r: string)
    ensures |r| <= |s| && r == s[|s| - |r|..]
    ensures |r| > 0 ==> !IsWhitespace(r[0])
    ensures forall i :: 0 <= i < |s| - |r| ==> IsWhitespace(s[i])
  {
    if |s| > 0 && IsWhitespace(s[0]) then TrimStart(s[1..]) else s
  }

  /** `s` with trailing whitespace removed. */
  function TrimEnd(s: string): (r: string)
    ensures |r| <= |s| && r == s[..|r|]
    ensures |r| > 0 ==> !IsWhitespace(r[|r| - 1])
    ensures forall i :: |r| <= i < |s| ==> IsWhitespace(s[i])
  {
    if |s| > 0 && IsWhitespace(s[|s| - 1]) then TrimEnd(s[..|s| - 1]) else s
  }

  /** `String.prototype.trim`. */
  function Trim(s: string): (r: string)
    ensures |r| > 0 ==> !IsWhitespace(r[0]) && !IsWhitespace(r[|r| - 1])
    ensures exists k :: StripsTo(s, r, k)
  {
    var t := TrimStart(s);
    var r := TrimEnd(t);
    assert StripsTo(s, r, |s| - |t|);
    r
  }

  /** `r` is the slice of `s` starting at `k`, and everything before and
      after that slice is whitespace. */
  ghost predicate StripsTo(s: string, r: string, k: int) {
    && 0 <= k <= |s| - |r|
    && r == s[k..k + |r|]
    && (forall i :: 0 <= i < k ==> IsWhitespace(s[i]))
    && (forall i :: k + |r| <= i < |s| ==> IsWhitespace(s[i]))
  }

  /** The trimmed string is empty exactly when every character is whitespace. */
  lemma TrimEmptyIffBlank(s: string)
    ensures |Trim(s)| == 0 <==> forall i :: 0 <= i < |s| ==> IsWhitespace(s[i])
  {
  }

  /** Lower-case mapping of one code point: ASCII and the Latin-1 capitals. */
  function LowerChar(c: char): char {
    if 'A' <= c <= 'Z' then (c as int + 32) as char
    else if '\U{C0}' <= c <= '\U{DE}' && c != '\U{D7}' then (c as int + 32) as char
    else c
  }

  /** `String.prototype.toLowerCase`, restricted to `LowerChar`. */
  function ToLower(s: string): (r: string)
    ensures |r| == |s|
    ensures forall i :: 0 <= i < |s| ==> r[i] == LowerChar(s[i])
  {
    if |s| == 0 then [] else [LowerChar(s[0])] + ToLower(s[1..])
  }

  /** Lower-casing is idempotent. */
  lemma ToLowerIdempotent(s: string)
    ensures ToLower(ToLower(s)) == ToLower(s)
  {
  }

  /** `needle` occurs in `hay` starting at index `i`. */
  ghost predicate OccursAt(hay: string, needle: string, i: int) {
    0 <= i && i + |needle| <= |hay| && hay[i..i + |needle|] == needle
  }

  /** `hay.includes(needle)`. */
  function Contains(hay: string, needle: string): (r: bool)
    ensures r <==> exists i :: OccursAt(hay, needle, i)
  {
    if needle <= hay then
      assert OccursAt(hay, needle, 0);
      true
    else if |hay| == 0 then
      assert forall i :: !OccursAt(hay, needle, i);
      false
    else
      var rest := Contains(hay[1..], needle);
      assert forall i :: OccursAt(hay[1..], needle, i) <==> OccursAt(hay, needle, i + 1);
      assert !OccursAt(hay, needle, 0);
      assert forall i :: OccursAt(hay, needle, i) ==> i >= 1 && OccursAt(hay[1..], needle, i - 1);
      rest
  }

  /** Every string contains the empty string. */
  lemma ContainsEmpty(hay: string)
    ensures Contains(hay, "")
  {
  }
}

=== FILE: totals.dfy ===
/**
 The aggregation the store performs after every change to a day's meals:
 each running total is recomputed from scratch as the sum, over the meals in
 order, of the meal's per-serving value times its quantity.
 */
module Totals {
  import opened Types
  import opened Seqs

  /** What meal `m` adds to the total of nutrient `k`. */
  function Contribution(m: Meal, k: Nutrient): real {
    PerServing(m, k) * m.quantity
  }

  /** Left-to-right reduction `meals.reduce((sum, m) => sum + value * quantity, 0)`. */
  function Sum(meals: seq<Meal>, k: Nutrient): (r: real)
    ensures (forall i :: 0 <= i < |meals| ==> Contribution(meals[i], k) >= 0.0) ==> r >= 0.0
  {
    if |meals| == 0 then 0.0
    else Sum(meals[..|meals| - 1], k) + Contribution(meals[|meals| - 1], k)
  }

  /** Appending one meal adds exactly its contribution. */
  lemma SumAppend(meals: seq<Meal>, m: Meal, k: Nutrient)
    ensures Sum(meals + [m], k) == Sum(meals, k) + Contribution(m, k)
  {
  }

  /** The sum over two blocks of meals is the sum of their sums. */
  lemma {:induction false} SumConcat(a: seq<Meal>, b: seq<Meal>, k: Nutrient)
    ensures Sum(a + b, k) == Sum(a, k) + Sum(b, k)
  {
    if |b| == 0 {
      assert a + b == a;
    } else {
      var b' := b[..|b| - 1];
      var last := b[|b| - 1];
      assert b == b' + [last];
      assert a + b == (a + b') + [last];
      SumConcat(a, b', k);
      SumAppend(a + b', last, k);
      SumAppend(b', last, k);
    }
  }

  /** The four totals of `log` equal the reductions over its meals. */
  predicate Consistent(log: DailyLog) {
    forall k: Nutrient :: TotalOf(log, k) == Sum(log.meals, k)
  }

  /** The log with its four totals recomputed from its meals. */
  function Recompute(log: DailyLog): (r: DailyLog)
    ensures Consistent(r)
    ensures r.meals == log.meals && r.date == log.date && r.calorieGoal == log.calorieGoal
  {
    log.(totalCalories := Sum(log.meals, Calories),
         totalProtein := Sum(log.meals, Protein),
         totalCarbs := Sum(log.meals, Carbs),
         totalFat := Sum(log.meals, Fat))
  }

  /** Recomputing a log whose totals already agree with its meals changes nothing. */
  lemma RecomputeConsistent(log: DailyLog)
    requires Consistent(log)
    ensures Recompute(log) == log
  {
  }

  /** The filter test `m => m.id !== mealId`. */
  function KeepUnless(mealId: string): Meal -> bool {
    (m: Meal) => m.id != mealId
  }

  /** The meals whose id differs from `mealId`, in their original order. */
  function Without(meals: seq<Meal>, mealId: string): (r: seq<Meal>)
    ensures forall m :: m in r <==> m in meals && m.id != mealId
    ensures IsSubseq(r, meals)
    ensures forall m :: multiset(r)[m] == if m.id != mealId then multiset(meals)[m] else 0
  {
    Filter(meals, KeepUnless(mealId))
  }

  /** Removing an id no meal carries leaves the sequence as it was. */
  lemma WithoutAbsent(meals: seq<Meal>, mealId: string)
    requires forall i :: 0 <= i < |meals| ==> meals[i].id != mealId
    ensures Without(meals, mealId) == meals
  {
    FilterKeepsAll(meals, KeepUnless(mealId));
  }

  /** Removing the same id twice is removing it once. */
  lemma WithoutTwice(meals: seq<Meal>, mealId: string)
    ensures Without(Without(meals, mealId), mealId) == Without(meals, mealId)
  {
    FilterIdempotent(meals, KeepUnless(mealId));
  }

  /** Removing the first of two meals with different ids leaves the second. */
  lemma WithoutFirstOfTwo(m1: Meal, m2: Meal)
    requires m1.id != m2.id
    ensures Without([m1, m2], m1.id) == [m2]
  {
    assert [m1, m2][1..] == [m2];
    assert [m2][1..] == [];
  }

  /** Removal works block by block: it keeps the relative order of survivors. */
  lemma WithoutConcat(a: seq<Meal>, b: seq<Meal>, mealId: string)
    ensures Without(a + b, mealId) == Without(a, mealId) + Without(b, mealId)
  {
    FilterConcat(a, b, KeepUnless(mealId));
  }
}

=== FILE: types.dfy ===
/**
 The records of the nutrition tracker: catalog foods, logged meals and the
 per-day aggregate.  Every numeric field of NutriTrack's records is a JavaScript
 number; here they are exact reals (macros, quantities) or integers (calorie
 goal, epoch-millisecond timestamps), so sums are exact.
 */
module Types {

  datatype Option<+T> = None | Some(value: T) {
    /** The value, or `default` when there is none. */
    function GetOr(default: T): T {
      match this
      case Some(v) => v
      case None => default
    }
  }

  /** The four meal slots a meal can be logged under. */
  datatype MealType = Breakfast | Lunch | Dinner | Snack

  /** How a meal entered the log.  `Voice` is part of the type but no code
      path produces it: spoken input only fills the search box. */
  datatype Source = Manual | Voice | Photo | Recipe

  /** A catalog entry; the four nutrition values are per `serving`. */
  datatype Food = Food(
    id: string,
    name: string,
    calories: real,
    protein: real,
    carbs: real,
    fat: real,
    fiber: Option<real>,
    serving: string)

  /** A logged meal: a denormalised copy of a food's values plus the
      quantity (a multiplier of one serving) and bookkeeping. */
  datatype Meal = Meal(
    id: string,
    foodId: string,
    foodName: string,
    calories: real,
    protein: real,
    carbs: real,
    fat: real,
    serving: string,
    quantity: real,
    timestamp: int,
    mealType: MealType,
    source: Source)

  /** One calendar day's log: the meals in insertion order, four running
      totals and the calorie goal captured when the log was created. */
  datatype DailyLog = DailyLog(
    date: string,
    meals: seq<Meal>,
    totalCalories: real,
    totalProtein: real,
    totalCarbs: real,
    totalFat: real,
    calorieGoal: int)

  /** Names one of the four nutrition fields that a log totals. */
  datatype Nutrient = Calories | Protein | Carbs | Fat

  /** The per-serving value of nutrient `k` recorded in meal `m`. */
  function PerServing(m: Meal, k: Nutrient): real {
    match k
    case Calories => m.calories
    case Protein => m.protein
    case Carbs => m.carbs
    case Fat => m.fat
  }

  /** The running total for nutrient `k` held in `log`. */
  function TotalOf(log: DailyLog, k: Nutrient): real {
    match k
    case Calories => log.totalCalories
    case Protein => log.totalProtein
    case Carbs => log.totalCarbs
    case Fat => log.totalFat
  }
}
